=== FILE: README.md ===
# Raw webhook agent — a Dafny model

This project models the request-admission core of the Huginn *Raw Webhook Agent*
(`Agents::RawWebhookAgent`). The agent turns an inbound HTTP request into one event
and one HTTP response. The model covers:

- `receive_web_request`: the fixed pipeline of checks.
  1. Drop the router's keys.
  2. Compare the `secret` parameter with the configured secret.
  3. Check the verb against the `verbs` allow-list.
  4. Pick the response code.
  5. Optionally verify a reCAPTCHA token with the verifier.
  6. Build the `{body, query, json}` event.
  7. Render a two- or four-part response.
- `parse_json`: parse the body, or give `{}` when parsing fails.
- `validate_options`: three independent error rules on the saved options.
- `default_options`: used as a fixture.

Everything is a pure function over immutable datatypes. The host's collaborators are
fields of a `Host` value:

- the options as interpolated in the agent's context (`settings`);
- the `response` option interpolated in a given context (`responseIn`);
- `boolify`;
- `JSON.parse` (a partial function, `parseJson`);
- the POST to the reCAPTCHA verifier (`verify`, which gives a transport error or a reply body).

The result of handling a request is a `Handled` value. It holds:

- the outcome: `Reject(message, 401)`, `Accept(event, response)`, or `Raise(failure)` for the exceptions the code lets escape;
- the list of verifier requests that were sent.

An event exists only inside `Accept`, so no rejected request creates one.

Modules:

- `RubyText`: the Ruby string operations the code relies on.
  - `strip`, `blank?`, ASCII `downcase` and `upcase`.
  - `split(/,/)`, which drops trailing empty fields.
  - `String#to_i` and `Integer#to_s`.
- `Values`: one universe for parameters, option values and JSON.
  - `nil` is `Null`, and a missing hash key reads as `Null`.
  - Ruby truthiness, `present?`/`presence` and `to_s`.
- `CodePattern`: the regular expression `\A\s*(\d+|\{.*)\s*\z`.
  - It is defined as a language (`Matches`) and as a scanner (`Match`).
  - The two are proved equal.
- `Verbs`: the allow-list built from the `verbs` option, and the rejection message.
- `Options`: the configuration, `validate_options` and the response-code conversion.
- `Webhook`: `receive_web_request` and `parse_json`.
- `Admission`: properties that cross steps, or link the pipeline with validation.

Some failures escape `receive_web_request` as exceptions instead of becoming a 401 answer:

- **A malformed verifier reply raises.**
  - `JSON.parse(response.body)['success']` (line 95) sits outside the `rescue` of lines 87-93.
  - A reply that is not JSON, or that cannot be indexed by `'success'`, therefore raises.
  - A reply that parses to a JSON string is indexed as Ruby's `String#[]` does: it reads as success exactly when the string contains "success".
  - The model gives `Raise(VerifierBodyNotJson)` or `Raise(VerifierBodyNotIndexable)`.
- **A `verbs` value that is not a string raises** on line 67: `Raise(VerbsNotText)`.
- **A `code` value with no `to_i` raises** at line 71: `Raise(CodeNotConvertible)`.

## Model

| member | source | states |
|---|---|---|
| Webhook.ReceiveWebRequest | lib/huginn_raw_webhook_agent/raw_webhook_agent.rb:58-112 | A wrong `secret` gives exactly ("Not Authorized", 401) with no verifier call. A disallowed verb gives the "Please use … requests only" 401 with no call. Every rejection is 401. The request is accepted exactly when every gate passes (`Admitted`). The event is body, query and parsed JSON. The code is the converted `code` option. The text is the rendered `response`, or "Event Created". The four-part shape with "text/plain" appears exactly when `response_headers` is present. The verifier is called at most once, and exactly when the earlier steps pass, reCAPTCHA is on and a token was delivered. |
| Webhook.AfterSecret | lib/huginn_raw_webhook_agent/raw_webhook_agent.rb:66-71 | Once the secret matches, a verb outside the list is refused with the list in the message. Acceptance and verifier calls are as for the whole pipeline. |
| Webhook.AfterVerb | lib/huginn_raw_webhook_agent/raw_webhook_agent.rb:71-111 | Once the secret and the verb pass, a code with no `to_i` raises. Otherwise acceptance and verifier calls are as for the whole pipeline. |
| Webhook.ReadVerdict | lib/huginn_raw_webhook_agent/raw_webhook_agent.rb:95-96 | A reply that is not JSON raises `VerifierBodyNotJson`. An object reads as success exactly when its `success` member is truthy. A JSON string reads as success exactly when it contains "success". Any other parsed value raises `VerifierBodyNotIndexable`. |
| Webhook.EventFor | lib/huginn_raw_webhook_agent/raw_webhook_agent.rb:99-105 | The event of an admitted request; its fields are stated by `Admission.AcceptedEvent`. |
| Webhook.ResponseFor | lib/huginn_raw_webhook_agent/raw_webhook_agent.rb:107-111 | The response of an admitted request; its text, code and shape are stated by `Webhook.ReceiveWebRequest` and `Admission.AcceptedResponseText`. |
| Webhook.CheckRecaptcha | lib/huginn_raw_webhook_agent/raw_webhook_agent.rb:73-97 | After the earlier steps, the request is accepted exactly when reCAPTCHA is off, or the token is truthy and the verifier's reply reads as success. A verifier call is made exactly when reCAPTCHA is on and the token is truthy. The call is the one `VerifierCall` describes. |
| Webhook.ParseJson | lib/huginn_raw_webhook_agent/raw_webhook_agent.rb:114-120 | Gives the parsed value when parsing succeeds. Gives `{}` exactly when parsing fails or yields `{}`. It never fails. |
| Webhook.RemainingParams | lib/huginn_raw_webhook_agent/raw_webhook_agent.rb:59-75 | The parameters left for the template never hold `secret` or a routing key. With reCAPTCHA on they do not hold the token. Every other delivered parameter is kept with its value. |
| Webhook.RenderContext | lib/huginn_raw_webhook_agent/raw_webhook_agent.rb:99-110 | The template context is the remaining parameters plus `body`, `query` and `json`. It holds no secret, no routing key, and (with reCAPTCHA on) no token. Its payload entries are the raw body, the query parameters and the parse result. Every other remaining parameter keeps its value under the merge. |
| Webhook.SecretSurvivesRouting | lib/huginn_raw_webhook_agent/raw_webhook_agent.rb:59-63 | Removing the routing keys does not change the delivered `secret`. |
| Webhook.TokenSurvives | lib/huginn_raw_webhook_agent/raw_webhook_agent.rb:59-75 | Removing the routing keys and the secret does not change the delivered token. |
| Webhook.PayloadKeys | lib/huginn_raw_webhook_agent/raw_webhook_agent.rb:99-103 | The payload has exactly the keys `body`, `query` and `json`. None of them is a key the pipeline removes. |
| Verbs.VerbList | lib/huginn_raw_webhook_agent/raw_webhook_agent.rb:67 | A falsy `verbs` gives exactly ["post"]. A string gives its parsed list. Any other value raises. |
| Verbs.ParsedVerbsWellFormed | lib/huginn_raw_webhook_agent/raw_webhook_agent.rb:67 | Every entry of a parsed list is non-blank, has nothing to strip, and has no upper-case letter. |
| Verbs.ParsedVerbsMembers | lib/huginn_raw_webhook_agent/raw_webhook_agent.rb:67 | A verb is in the parsed list exactly when it is not blank and some comma-separated field strips and lower-cases to it. The trailing empty fields `split` drops make no difference. |
| Verbs.PostOnly | lib/huginn_raw_webhook_agent/raw_webhook_agent.rb:67 | The default text "post" denotes the list ["post"]. |
| Verbs.EmptyTextAllowsNothing | lib/huginn_raw_webhook_agent/raw_webhook_agent.rb:67 | An explicitly empty `verbs` text gives the empty list, because `||` keeps "". |
| Verbs.NormalizeAll | lib/huginn_raw_webhook_agent/raw_webhook_agent.rb:67 | Each field is mapped, in place, to its stripped, lower-cased form. |
| Verbs.VerbMessage | lib/huginn_raw_webhook_agent/raw_webhook_agent.rb:68 | The rejection message: the allowed verbs joined by `/` and upper-cased; its exact text for the default list is stated by `Admission.DefaultVerbsRefuseOthers`. |
| Verbs.KeepPresent | lib/huginn_raw_webhook_agent/raw_webhook_agent.rb:67 | Exactly the non-blank entries are kept. |
| Verbs.KeepPresentCounts | lib/huginn_raw_webhook_agent/raw_webhook_agent.rb:67-68 | Every non-blank entry is kept as many times as it occurs, and no blank entry is kept, so repeats show in the rejection message. |
| Verbs.KeepPresentAppend | lib/huginn_raw_webhook_agent/raw_webhook_agent.rb:67-68 | Selecting from two lists joined is selecting from each and joining, so the order of the fields is kept. |
| RubyText.Split | lib/huginn_raw_webhook_agent/raw_webhook_agent.rb:67 | `String#split` on one character: the fields of `RubyText.SplitAll` (which `RubyText.SplitJoin` shows join back to the text) with trailing empty fields dropped, as `RubyText.DropTrailingEmpty` states. |
| RubyText.ToI | lib/huginn_raw_webhook_agent/raw_webhook_agent.rb:71 | `String#to_i`; stated by `RubyText.ToIDecimal` and `RubyText.PaddedDigitsToI`. |
| RubyText.SplitJoin | lib/huginn_raw_webhook_agent/raw_webhook_agent.rb:67 | Splitting on a separator and joining the parts back with it restores the text. |
| RubyText.Strip | lib/huginn_raw_webhook_agent/raw_webhook_agent.rb:67 | The result has no NUL or white space at either end. It is empty exactly when the text is all such characters. A text with clean ends is unchanged. |
| RubyText.StripIsInfix | lib/huginn_raw_webhook_agent/raw_webhook_agent.rb:67 | The result is the part of the text between a leading and a trailing run of NUL and white space. |
| RubyText.Downcase | lib/huginn_raw_webhook_agent/raw_webhook_agent.rb:67 | Each character is mapped to lower case, and no upper-case letter remains. |
| RubyText.Upcase | lib/huginn_raw_webhook_agent/raw_webhook_agent.rb:68 | Each character is mapped to upper case, and no lower-case letter remains. |
| RubyText.ToIDecimal | lib/huginn_raw_webhook_agent/raw_webhook_agent.rb:71 | `n.to_s.to_i == n` for every integer. |
| RubyText.PaddedDigitsToI | lib/huginn_raw_webhook_agent/raw_webhook_agent.rb:71 | White space, digits, white space converts to the value of the digits. |
| Admission.VerbsNotTextRaises | lib/huginn_raw_webhook_agent/raw_webhook_agent.rb:66-67 | Once the secret matches, a truthy `verbs` value that is not a string raises `VerbsNotText` with no verifier call. It is neither accepted nor refused. |
| Admission.CodeNotConvertibleRaises | lib/huginn_raw_webhook_agent/raw_webhook_agent.rb:71 | Once the secret and the verb pass, a `code` with no `to_i` raises `CodeNotConvertible` with no verifier call. |
| Options.ResponseCode | lib/huginn_raw_webhook_agent/raw_webhook_agent.rb:71 | The code a request is answered with: `presence`, then `to_i`, else 201. It has no value (the request raises) exactly when the code is present and is neither a number nor a string, such as `true`, an array or a hash. `Admission.CodeDefault`, `Admission.DecimalCodeRoundTrip` and `Options.DigitCodeIsStatus` state its values. |
| Options.ValidateOptions | lib/huginn_raw_webhook_agent/raw_webhook_agent.rb:126-138 | The three validation messages; stated rule by rule by `Options.ValidationRules`. |
| Admission.CodeDefault | lib/huginn_raw_webhook_agent/raw_webhook_agent.rb:71 | A blank or absent `code` answers 201. |
| Admission.DecimalCodeRoundTrip | lib/huginn_raw_webhook_agent/raw_webhook_agent.rb:71 | A code given as a number, or as that number's decimal text, answers with that number. |
| Options.DigitCodeIsStatus | lib/huginn_raw_webhook_agent/raw_webhook_agent.rb:71 | A code of digits with white space around it is accepted by validation. It answers with the number the digits spell. |
| Values.Presence | lib/huginn_raw_webhook_agent/raw_webhook_agent.rb:74 | `presence` gives `nil` exactly when the value is blank, and the value itself otherwise. |
| CodePattern.MatchIsRegex | lib/huginn_raw_webhook_agent/raw_webhook_agent.rb:131 | The scanner accepts exactly the language of `\A\s*(\d+\|\{.*)\s*\z`. |
| Options.ValidationRules | lib/huginn_raw_webhook_agent/raw_webhook_agent.rb:126-138 | The secret message is added exactly when `secret` is blank. The code message is added exactly when `code` is present and outside the pattern's language. The redirect message is added exactly when `code.to_s` is "301" or "302" and `response` is blank. Each rule ignores the others. Messages come in rule order, none repeated, and nothing else is added. |
| Options.Rule | lib/huginn_raw_webhook_agent/raw_webhook_agent.rb:127-129 | A message is added exactly when its rule is broken, at most once. |
| Options.DefaultOptionsValid | lib/huginn_raw_webhook_agent/raw_webhook_agent.rb:52-56 | The default options pass validation. |
| Options.RedirectNeedsUrl | lib/huginn_raw_webhook_agent/raw_webhook_agent.rb:135-137 | A redirect code, as text or as a number, without a `response` is refused. |
| Options.CodeShapesAccepted | lib/huginn_raw_webhook_agent/raw_webhook_agent.rb:131 | Padded digit runs, and texts starting with `{` without a line feed, are in the pattern's language. |
| Options.PaddedRedirectCodeSlipsThrough | lib/huginn_raw_webhook_agent/raw_webhook_agent.rb:135 | A padded redirect code such as " 301" passes validation without a `response` and still answers 301. |
| Options.CorrectedRedirectNeedsUrl | lib/huginn_raw_webhook_agent/raw_webhook_agent.rb:135-137 | With the redirect rule applied to the converted code, the message is added exactly when the answer would be a redirect without a `response`. Every code the written rule catches is still caught. |
| Admission.RedirectAnswerHasUrl | lib/huginn_raw_webhook_agent/raw_webhook_agent.rb:71-111 | Under the corrected rule, an accepted request answered with 301 or 302 always has a `response` to redirect to. |
| Admission.ValidatedSecretRequired | lib/huginn_raw_webhook_agent/raw_webhook_agent.rb:63-64 | With options that pass the secret rule, a request without a `secret` parameter is refused with no verifier call. |
| Admission.DefaultVerbsAllowPostOnly | lib/huginn_raw_webhook_agent/raw_webhook_agent.rb:67-68 | With no `verbs` option, a verb passes exactly when it is "post". |
| Admission.DefaultVerbsRefuseOthers | lib/huginn_raw_webhook_agent/raw_webhook_agent.rb:68 | With no `verbs` option, any other verb is refused with "Please use POST requests only". |
| Admission.VerbAllowedIffListed | lib/huginn_raw_webhook_agent/raw_webhook_agent.rb:67-68 | With a `verbs` text, a verb passes exactly when some field normalises to it. |
| Admission.EmptyVerbsRefuseAll | lib/huginn_raw_webhook_agent/raw_webhook_agent.rb:67-68 | An empty `verbs` text refuses every request that passes the secret check. |
| Admission.MissingTokenRefused | lib/huginn_raw_webhook_agent/raw_webhook_agent.rb:75-76 | With reCAPTCHA on, a missing or falsy token gives ("Not Authorized", 401) with no verifier call. |
| Admission.TransportErrorRefused | lib/huginn_raw_webhook_agent/raw_webhook_agent.rb:87-93 | A verifier transport error gives 401, after exactly one call. |
| Admission.FalsySuccessRefused | lib/huginn_raw_webhook_agent/raw_webhook_agent.rb:95-96 | A reply whose `success` is falsy gives 401, after exactly one call. |
| Admission.ReplyVerdictOutcome | lib/huginn_raw_webhook_agent/raw_webhook_agent.rb:87-97 | After one verifier call, a reply that reads as broken raises that failure. A reply that is not JSON, or that parses to neither an object nor a string, is broken. A refusal gives ("Not Authorized", 401). A refusal is a falsy `success`, or a string without "success". |
| Admission.MalformedReplyRaises | lib/huginn_raw_webhook_agent/raw_webhook_agent.rb:95 | A reply that is not JSON raises instead of being refused. |
| Admission.VerifierForm | lib/huginn_raw_webhook_agent/raw_webhook_agent.rb:78-85 | The verifier form carries the configured secret and the delivered token. It carries `remoteip` (the remote address) exactly when the host's `boolify` of `recaptcha_send_remote_addr` holds. |
| Admission.NoCaptchaNoCall | lib/huginn_raw_webhook_agent/raw_webhook_agent.rb:74 | Without reCAPTCHA the verifier is never called. A request is then accepted exactly when the earlier steps pass. |
| Admission.AcceptedEvent | lib/huginn_raw_webhook_agent/raw_webhook_agent.rb:99-105 | An accepted request's event holds the raw body, the query parameters, and the parse result or `{}`. |
| Admission.AcceptedResponseText | lib/huginn_raw_webhook_agent/raw_webhook_agent.rb:107-111 | The text is the rendered `response` when truthy, else "Event Created". The template context has no secret, routing key, or (with reCAPTCHA on) token. |
| Admission.ReachesCaptcha | lib/huginn_raw_webhook_agent/raw_webhook_agent.rb:58-74 | A request that passes the secret, verb and code steps is decided by the reCAPTCHA step. |

## Left out

- The reCAPTCHA POST (lines 88-89) is I/O. It is the oracle `Host.verify`, which gives a transport error or a reply body. Logging the error message (line 91) is not modelled.
- `JSON.parse` is a foreign library. It is the partial function `Host.parseJson`, so JSON text is not modelled.
- `interpolated`, `interpolated(ctx)` and `boolify` are host template and coercion machinery. They are `Host.settings`, `Host.responseIn` and `Host.boolify`. Validation reads the raw `options`. The lemmas that link the two take the interpolated options to be the saved ones.
- `create_event` is not modelled as a side effect. The event is the `event` of `Accept`.
- `working?` (lines 122-124) is not modelled: it depends on host persistence, time and logs.
- The `description` and `event_description` texts (lines 8-50) are not modelled. They are documentation.
- `cannot_be_scheduled!` and `cannot_receive_events!` (lines 5-6) are not modelled. They are host declarations.
- The test file `spec/raw_webhook_agent_spec.rb` holds only a pending example, so there is nothing in it to state.
- Floating-point numbers are not modelled: `Value` has integers only.
- RubyText.Downcase: maps ASCII letters only. Ruby's full Unicode case mapping is not modelled.
- RubyText.Upcase: maps ASCII letters only, for the same reason.
- Values.ToS: gives the stand-ins "[...]" and "{...}" in place of Ruby's `inspect` text for arrays and hashes. The stand-ins keep the first character and have no line feed, which is all that validation looks at.
- RubyText.ToI: `to_i` reads base 10 only. Over-long numbers are unbounded integers, as in Ruby.
- The query parameters are a map, not an ordered multi-map. Repeated query keys are not modelled.

## Findings

| source | as written | input that shows it | evidently intended | confidence | as-written member | corrected member |
|---|---|---|---|---|---|---|
| lib/huginn_raw_webhook_agent/raw_webhook_agent.rb:135 | The redirect rule compares `code.to_s` with "301" and "302". Requests are answered with `code.to_i`, and the code rule accepts white space around digits. | The default options with `code` " 301" and no `response` pass validation. Requests are then answered 301 with nothing to redirect to. | Any code that answers 301 or 302 needs a `response` URL. | medium; not executed | Options.PaddedRedirectCodeSlipsThrough | Options.CorrectedRedirectNeedsUrl |

=== FILE: admission.dfy ===
/**
 Properties of the admission pipeline that relate several of its steps, or the
 pipeline and the option validation, stated on whole requests.
 */
module Admission {
  import opened RubyText
  import opened Values
  import opened Options
  import opened Verbs
  import opened Webhook

  /** Saved options always carry a present secret, so a request without a `secret`
      parameter is refused before anything else is looked at. */
  lemma ValidatedSecretRequired(host: Host, req: Request)
    requires SecretError !in ValidateOptions(host.settings)
    requires SecretParam !in req.params
    ensures ReceiveWebRequest(host, req) == Handled(Reject(NotAuthorized, Unauthorized), [])
  {
    ValidationRules(host.settings);
    assert host.settings.secret != Null;
    assert !SecretMatches(host, req);
  }

  /** With no `verbs` option only POST gets through the verb step. */
  lemma DefaultVerbsAllowPostOnly(host: Host, req: Request)
    requires !Truthy(host.settings.verbs)
    ensures VerbAllowed(host, req) <==> req.verb == "post"
  {
    assert VerbList(host.settings.verbs) == Some(["post"]);
  }

  /** With no `verbs` option any other verb is refused and told to use POST. */
  lemma DefaultVerbsRefuseOthers(host: Host, req: Request)
    requires SecretMatches(host, req)
    requires !Truthy(host.settings.verbs)
    requires req.verb != "post"
    ensures ReceiveWebRequest(host, req) == Handled(Reject("Please use " + "POST" + " requests only", Unauthorized), [])
  {
    assert req.verb !in VerbList(host.settings.verbs).value by {
      assert VerbList(host.settings.verbs).value == ["post"];
    }
    PostMessage(VerbList(host.settings.verbs).value);
    VerbRefused(host, req, VerbList(host.settings.verbs).value);
  }

  lemma VerbRefused(host: Host, req: Request, verbs: seq<string>)
    requires SecretMatches(host, req)
    requires VerbList(host.settings.verbs) == Some(verbs) && req.verb !in verbs
    ensures ReceiveWebRequest(host, req) == Handled(Reject(VerbMessage(verbs), Unauthorized), [])
  {
  }

  lemma PostMessage(verbs: seq<string>)
    requires verbs == ["post"]
    ensures VerbMessage(verbs) == "Please use " + "POST" + " requests only"
  {
    var v := Join(verbs, "/");
    assert v == verbs[0];
    var u := Upcase(v);
    assert |u| == 4;
    assert u[0] == 'P' && u[1] == 'O' && u[2] == 'S' && u[3] == 'T';
    assert u == "POST";
  }

  /** With a `verbs` text, the request's verb passes exactly when it is not blank and some
      comma-separated field of the text strips and lower-cases to it. */
  lemma VerbAllowedIffListed(host: Host, req: Request)
    requires host.settings.verbs.Str?
    ensures VerbAllowed(host, req) <==>
              !Blank(req.verb) && exists f :: f in SplitAll(host.settings.verbs.s, ',') && Normalize(f) == req.verb
  {
    ParsedVerbsMembers(host.settings.verbs.s, req.verb);
  }

  /** An explicitly empty `verbs` text refuses every verb, with an empty list in the message. */
  lemma EmptyVerbsRefuseAll(host: Host, req: Request)
    requires SecretMatches(host, req)
    requires host.settings.verbs == Str("")
    ensures ReceiveWebRequest(host, req) == Handled(Reject(VerbMessage([]), Unauthorized), [])
  {
    EmptyTextAllowsNothing();
  }

  /** A truthy `verbs` value that is not a string makes line 67 raise once the secret
      matches: the request is neither accepted nor refused. */
  lemma VerbsNotTextRaises(host: Host, req: Request)
    ensures SecretMatches(host, req) && Truthy(host.settings.verbs) && !host.settings.verbs.Str?
            ==> ReceiveWebRequest(host, req) == Handled(Raise(VerbsNotText), [])
  {
    if SecretMatches(host, req) {
      SecretPassed(host, req);
      RemoveInTurn(req.params, RoutingKeys, SecretParam);
    }
  }

  /** A `code` value with no `to_i` raises once the secret and the verb have passed. */
  lemma CodeNotConvertibleRaises(host: Host, req: Request)
    ensures SecretMatches(host, req) && VerbAllowed(host, req) && ResponseCode(host.settings.code).None?
            ==> ReceiveWebRequest(host, req) == Handled(Raise(CodeNotConvertible), [])
  {
    if SecretMatches(host, req) {
      SecretPassed(host, req);
      RemoveInTurn(req.params, RoutingKeys, SecretParam);
    }
  }

  /** A blank or absent code answers 201. */
  lemma CodeDefault(code: Value)
    requires !Present(code)
    ensures ResponseCode(code) == Some(DefaultCode)
  {
  }

  /** Under the corrected validation, an accepted request answered with 301 or 302 always
      has a `response` option to redirect to. */
  lemma RedirectAnswerHasUrl(host: Host, req: Request)
    requires ValidateOptionsCorrected(host.settings) == []
    ensures var h := ReceiveWebRequest(host, req);
            h.outcome.Accept? && h.outcome.response.code in {301, 302} ==> Present(host.settings.response)
  {
    var h := ReceiveWebRequest(host, req);
    if h.outcome.Accept? && h.outcome.response.code in {301, 302} {
      assert RedirectStatus(host.settings.code);
      CorrectedRedirectNeedsUrl(host.settings);
    }
  }

  /** A code configured as the decimal text of a number answers with that number,
      just as the number itself does. */
  lemma DecimalCodeRoundTrip(n: int)
    ensures ResponseCode(Str(Decimal(n))) == Some(n)
    ensures ResponseCode(Num(n)) == Some(n)
  {
    var s := Decimal(n);
    ToIDecimal(n);
    DecimalNotBlank(n);
    assert Presence(Str(s)) == Str(s);
  }

  lemma DecimalNotBlank(n: int)
    ensures !Blank(Decimal(n))
  {
    var s := Decimal(n);
    assert !IsUnicodeSpace(s[0]);
  }

  /** With reCAPTCHA on, a request that passed the earlier steps but carries no token is
      refused without asking the verifier. */
  lemma MissingTokenRefused(host: Host, req: Request)
    ensures PassedBeforeCaptcha(host, req) && CaptchaRequired(host) && !Truthy(Token(req))
            ==> ReceiveWebRequest(host, req) == Handled(Reject(NotAuthorized, Unauthorized), [])
  {
    ReachesCaptcha(host, req);
  }

  /** A verifier that cannot be reached refuses the request after one call. */
  lemma TransportErrorRefused(host: Host, req: Request)
    ensures && PassedBeforeCaptcha(host, req) && CaptchaRequired(host) && Truthy(Token(req))
            && host.verify(VerifierCall(host, req)).TransportError?
            ==> ReceiveWebRequest(host, req) == Handled(Reject(NotAuthorized, Unauthorized), [VerifierCall(host, req)])
  {
    ReachesCaptcha(host, req);
  }

  /** A verifier reply whose `success` is falsy refuses the request after one call. */
  lemma FalsySuccessRefused(host: Host, req: Request, fields: map<string, Value>)
    ensures && PassedBeforeCaptcha(host, req) && CaptchaRequired(host) && Truthy(Token(req))
            && host.verify(VerifierCall(host, req)).Reply?
            && host.parseJson(host.verify(VerifierCall(host, req)).body) == Some(Obj(fields))
            && !Truthy(Lookup(fields, "success"))
            ==> ReceiveWebRequest(host, req) == Handled(Reject(NotAuthorized, Unauthorized), [VerifierCall(host, req)])
  {
    ReachesCaptcha(host, req);
    var reply := host.verify(VerifierCall(host, req));
    if reply.Reply? && host.parseJson(reply.body) == Some(Obj(fields)) && !Truthy(Lookup(fields, "success")) {
      FalsyReplyRefused(host, reply.body, fields);
    }
  }

  lemma FalsyReplyRefused(host: Host, body: string, fields: map<string, Value>)
    requires host.parseJson(body) == Some(Obj(fields))
    requires !Truthy(Lookup(fields, "success"))
    ensures ReadVerdict(host, body) == Refused
  {
  }

  /** A verifier reply that is not JSON is not turned into a refusal: the exception escapes. */
  lemma MalformedReplyRaises(host: Host, req: Request)
    ensures && PassedBeforeCaptcha(host, req) && CaptchaRequired(host) && Truthy(Token(req))
            && host.verify(VerifierCall(host, req)).Reply?
            && host.parseJson(host.verify(VerifierCall(host, req)).body).None?
            ==> ReceiveWebRequest(host, req) == Handled(Raise(VerifierBodyNotJson), [VerifierCall(host, req)])
  {
    ReachesCaptcha(host, req);
  }

  /** Every verifier reply that is not a success decides the outcome after one call: a
      broken reply (not JSON, or neither an object nor a string) raises, and a refusal
      (a falsy `success`, or a string without "success") gives ("Not Authorized", 401). */
  lemma ReplyVerdictOutcome(host: Host, req: Request)
    ensures && PassedBeforeCaptcha(host, req) && CaptchaRequired(host) && Truthy(Token(req))
            && host.verify(VerifierCall(host, req)).Reply?
            ==> var v := ReadVerdict(host, host.verify(VerifierCall(host, req)).body);
                && (v.Broken? ==> ReceiveWebRequest(host, req) == Handled(Raise(v.failure), [VerifierCall(host, req)]))
                && (v == Refused ==> ReceiveWebRequest(host, req) == Handled(Reject(NotAuthorized, Unauthorized), [VerifierCall(host, req)]))
  {
    ReachesCaptcha(host, req);
  }

  /** A request that passes the secret, verb and code steps is decided by the reCAPTCHA step. */
  lemma ReachesCaptcha(host: Host, req: Request)
    ensures PassedBeforeCaptcha(host, req) ==>
              ReceiveWebRequest(host, req)
              == CheckRecaptcha(host, req, req.params - (RoutingKeys + {SecretParam}), ResponseCode(host.settings.code).value)
  {
    if PassedBeforeCaptcha(host, req) {
      var params := req.params - (RoutingKeys + {SecretParam});
      RemoveInTurn(req.params, RoutingKeys, SecretParam);
      SecretPassed(host, req);
      AfterSecretPassed(host, req, params);
    }
  }

  /** Removing a set of keys and then one more is removing them all at once. */
  lemma RemoveInTurn(m: map<string, Value>, keys: set<string>, key: string)
    ensures (m - keys) - {key} == m - (keys + {key})
  {
  }

  lemma SecretPassed(host: Host, req: Request)
    requires SecretMatches(host, req)
    ensures ReceiveWebRequest(host, req) == AfterSecret(host, req, (req.params - RoutingKeys) - {SecretParam})
  {
    SecretSurvivesRouting(req.params);
  }

  lemma AfterSecretPassed(host: Host, req: Request, params: map<string, Value>)
    requires PassedBeforeCaptcha(host, req)
    requires params == req.params - (RoutingKeys + {SecretParam})
    ensures AfterSecret(host, req, params) == CheckRecaptcha(host, req, params, ResponseCode(host.settings.code).value)
  {
  }

  /** The form sent to the verifier: the configured reCAPTCHA secret, the delivered token,
      and the remote address exactly when the host's `boolify` of `recaptcha_send_remote_addr` holds. */
  lemma VerifierForm(host: Host, req: Request)
    ensures var calls := ReceiveWebRequest(host, req).verifierCalls;
            calls != [] ==>
              && calls[0].secret == host.settings.recaptchaSecret
              && calls[0].response == Lookup(req.params, TokenParam)
              && (calls[0].remoteIp.Some? <==> host.boolify(host.settings.recaptchaSendRemoteAddr))
              && (calls[0].remoteIp.Some? ==> calls[0].remoteIp.value == req.remoteAddr)
  {
  }

  /** Without reCAPTCHA the verifier is never asked and every request that passes the
      earlier steps is accepted. */
  lemma NoCaptchaNoCall(host: Host, req: Request)
    requires !CaptchaRequired(host)
    ensures ReceiveWebRequest(host, req).verifierCalls == []
    ensures ReceiveWebRequest(host, req).outcome.Accept? <==> PassedBeforeCaptcha(host, req)
  {
  }

  /** The event of an accepted request: the raw body, the query parameters, and the
      parsed body or an empty object when it does not parse. */
  lemma AcceptedEvent(host: Host, req: Request)
    ensures var h := ReceiveWebRequest(host, req);
            h.outcome.Accept? ==>
            var e := h.outcome.event;
            && e.body == req.rawPost
            && e.query == req.queryParameters
            && e.json == (match host.parseJson(req.rawPost) case Some(v) => v case None => Obj(map[]))
  {
  }

  /** The response text is the rendered `response` option, or "Event Created" when that
      renders to nothing truthy; the template never sees the secret, the routing keys, or,
      with reCAPTCHA on, the token. */
  lemma AcceptedResponseText(host: Host, req: Request)
    ensures var h := ReceiveWebRequest(host, req);
            h.outcome.Accept? ==>
            var ctx := RenderContext(host, req);
            var text := h.outcome.response.text;
            && (Truthy(host.responseIn(ctx)) ==> text == host.responseIn(ctx))
            && (!Truthy(host.responseIn(ctx)) ==> text == Str(DefaultResponse))
            && SecretParam !in ctx
            && (forall k :: k in RoutingKeys ==> k !in ctx)
            && (CaptchaRequired(host) ==> TokenParam !in ctx)
  {
  }
}

=== FILE: code_pattern.dfy ===
/**
 The regular expression `\A\s*(\d+|\{.*)\s*\z` with which option validation
 accepts a response code: a run of digits, or text that starts with `{` (a
 template still to be interpolated), with optional white space around it.
 In Ruby `\s` and `\d` are ASCII classes and `.` matches anything but a line feed.
 */
module CodePattern {
  import opened RubyText

  /** The middle group `(\d+|\{.*)`. */
  predicate CoreMatch(t: string) {
    |t| > 0 && (AllDigits(t) || (t[0] == '{' && '\n' !in t[1..]))
  }

  /** The expression matches `s` with its middle group spanning `s[i..k]`. */
  predicate MatchesWith(s: string, i: int, k: int) {
    0 <= i <= k <= |s| && AllSpace(s[..i]) && CoreMatch(s[i..k]) && AllSpace(s[k..])
  }

  /** The language of the expression, read off its definition. */
  ghost predicate Matches(s: string) {
    exists i, k :: MatchesWith(s, i, k)
  }

  /** The part of `r` from its first line feed on; empty when there is none. */
  function FromFirstNewline(r: string): string {
    if '\n' in r then r[IndexOf(r, '\n')..] else ""
  }

  /** A single left-to-right scan for the expression: skip white space; then either
      a digit run followed by white space only, or a `{` after which everything
      from the first line feed on is white space. */
  function Match(s: string): bool {
    var t := DropWhile(s, IsSpace);
    if |t| == 0 then false
    else if t[0] == '{' then AllSpace(FromFirstNewline(t[1..]))
    else if IsDigit(t[0]) then AllSpace(DropWhile(t, IsDigit))
    else false
  }

  /** The scanner accepts exactly the language of the expression. */
  lemma MatchIsRegex(s: string)
    ensures Match(s) <==> Matches(s)
  {
    if Match(s) {
      MatchFound(s);
    }
    if Matches(s) {
      var i, k :| MatchesWith(s, i, k);
      MatchComplete(s, i, k);
    }
  }

  /** Whatever the scanner accepts has a match of the expression. */
  lemma MatchFound(s: string)
    requires Match(s)
    ensures Matches(s)
  {
    var t := DropWhile(s, IsSpace);
    var n := |s| - |t|;
    assert s[n..] == t;
    assert AllSpace(s[..n]);
    if t[0] == '{' {
      BraceFound(s, n);
    } else {
      DigitsFound(s, n);
    }
  }

  lemma BraceFound(s: string, n: nat)
    requires n < |s| && AllSpace(s[..n]) && s[n] == '{'
    requires AllSpace(FromFirstNewline(s[n + 1..]))
    ensures Matches(s)
  {
    var r := s[n + 1..];
    if '\n' in r {
      var p := IndexOf(r, '\n');
      var k := n + 1 + p;
      assert s[n..k][1..] == r[..p];
      assert s[k..] == r[p..];
      assert MatchesWith(s, n, k);
    } else {
      assert s[n..|s|][1..] == r;
      assert MatchesWith(s, n, |s|);
    }
  }

  lemma DigitsFound(s: string, n: nat)
    requires n < |s| && AllSpace(s[..n]) && IsDigit(s[n])
    requires AllSpace(DropWhile(s[n..], IsDigit))
    ensures Matches(s)
  {
    var t := s[n..];
    var u := DropWhile(t, IsDigit);
    var m := |t| - |u|;
    assert s[n..n + m] == t[..m];
    assert s[n + m..] == u;
    assert MatchesWith(s, n, n + m);
  }

  /** Every match of the expression is found by the scanner. */
  lemma MatchComplete(s: string, i: int, k: int)
    requires MatchesWith(s, i, k)
    ensures Match(s)
  {
    LeadingSpaceEnds(s, i, k);
    var t := DropWhile(s, IsSpace);
    assert t == s[i..];
    if AllDigits(s[i..k]) {
      DigitsComplete(s, i, k);
    } else {
      BraceComplete(s, i, k);
    }
  }

  lemma DigitsComplete(s: string, i: int, k: int)
    requires MatchesWith(s, i, k) && AllDigits(s[i..k])
    ensures AllSpace(DropWhile(s[i..], IsDigit))
  {
    var u := DropWhile(s[i..], IsDigit);
    DigitRunCovers(s, i, k);
    SuffixOfSuffix(s, i, u);
    SpaceSuffix(s, k, u);
  }

  /** A suffix of `s[i..]` is a suffix of `s`. */
  lemma SuffixOfSuffix(s: string, i: int, u: string)
    requires 0 <= i <= |s| && |u| <= |s| - i && u == s[i..][|s| - i - |u|..]
    ensures u == s[|s| - |u|..]
  {
  }

  /** A suffix of `s` that starts at or after `k` is all space when `s[k..]` is. */
  lemma SpaceSuffix(s: string, k: int, u: string)
    requires 0 <= k <= |s| && AllSpace(s[k..])
    requires |u| <= |s| - k && u == s[|s| - |u|..]
    ensures AllSpace(u)
  {
    var d := |s| - |u| - k;
    assert u == s[k..][d..];
  }

  /** The digit run the scanner skips reaches at least to the end of the middle group. */
  lemma DigitRunCovers(s: string, i: int, k: int)
    requires MatchesWith(s, i, k) && AllDigits(s[i..k])
    ensures |s| - i - |DropWhile(s[i..], IsDigit)| >= k - i
  {
    var t := s[i..];
    var u := DropWhile(t, IsDigit);
    var m := |t| - |u|;
    forall j | 0 <= j < k - i
      ensures IsDigit(t[j])
    {
      assert t[j] == s[i..k][j];
    }
    assert |u| > 0 ==> u[0] == t[m];
  }

  lemma BraceComplete(s: string, i: int, k: int)
    requires MatchesWith(s, i, k) && s[i] == '{' && '\n' !in s[i..k][1..]
    ensures AllSpace(FromFirstNewline(s[i + 1..]))
  {
    var r := s[i + 1..];
    if '\n' in r {
      var p := IndexOf(r, '\n');
      forall j | 0 <= j < k - i - 1
        ensures r[j] != '\n'
      {
        assert r[j] == s[i..k][1..][j];
      }
      assert p >= k - i - 1;
      forall j | 0 <= j < |r| - p
        ensures IsSpace(r[p..][j])
      {
        assert r[p..][j] == s[k..][i + 1 + p - k + j];
      }
    }
  }

  /** The white space before the middle group is exactly the leading white space of `s`. */
  lemma LeadingSpaceEnds(s: string, i: int, k: int)
    requires MatchesWith(s, i, k)
    ensures |s| - |DropWhile(s, IsSpace)| == i
  {
    var t := DropWhile(s, IsSpace);
    var n := |s| - |t|;
    assert !IsSpace(s[i]) by {
      assert s[i] == s[i..k][0];
    }
    forall j | 0 <= j < i
      ensures IsSpace(s[j])
    {
      assert s[j] == s[..i][j];
    }
    assert |t| > 0 ==> t[0] == s[n];
  }
}

=== FILE: options.dfy ===
/**
 The agent's options and the validation the host runs when they are saved.
 */
module Options {
  import opened RubyText
  import opened Values
  import CodePattern

  /** The options the agent reads, by key; an absent key is `Null`. */
  datatype Config = Config(
    secret: Value,
    expectedReceivePeriodInDays: Value,
    verbs: Value,
    response: Value,
    responseHeaders: Value,
    code: Value,
    recaptchaSecret: Value,
    recaptchaSendRemoteAddr: Value)

  /** `default_options`: a secret and a one-day expected receive period. */
  function DefaultOptions(): Config {
    Config(Str("supersecretstring"), Num(1), Null, Null, Null, Null, Null, Null)
  }

  const SecretError := "Must specify a secret for 'Authenticating' requests"
  const CodeError := "Must specify a code for request responses"
  const RedirectError := "Must specify a url for request redirect"

  /** Where each message stands in the order the three rules run. */
  function Rank(message: string): nat {
    if message == SecretError then 0 else if message == CodeError then 1 else 2
  }

  lemma MessagesDistinct()
    ensures Rank(SecretError) == 0 && Rank(CodeError) == 1 && Rank(RedirectError) == 2
  {
    assert |SecretError| == 51 && |CodeError| == 41 && |RedirectError| == 39;
  }

  const DefaultCode := 201

  /** `(code.presence || 201).to_i`, the status a request is answered with; `None` when
      the value has no `to_i`. */
  function ResponseCode(code: Value): (r: Option<int>)
    ensures r.None? <==> Present(code) && !code.Num? && !code.Str?
  {
    match Presence(code)
    case Null => Some(DefaultCode)
    case Num(n) => Some(n)
    case Str(s) => Some(ToI(s))
    case _ => None
  }

  /** `code.to_s` names one of the two redirect codes. */
  predicate IsRedirectCode(code: Value) {
    ToS(code) == "301" || ToS(code) == "302"
  }

  /** `validate_options`: the messages added to the record's errors, in order. */
  function ValidateOptions(o: Config): seq<string> {
    Rule(!Present(o.secret), SecretError)
    + Rule(Present(o.code) && !CodePattern.Match(ToS(o.code)), CodeError)
    + Rule(IsRedirectCode(o.code) && !Present(o.response), RedirectError)
  }

  /** Each message is added exactly when its own rule is broken, whatever the other
      options say; the code rule is the regular expression's language; the messages
      come in rule order with none repeated. */
  lemma ValidationRules(o: Config)
    ensures SecretError in ValidateOptions(o) <==> !Present(o.secret)
    ensures CodeError in ValidateOptions(o) <==> Present(o.code) && !CodePattern.Matches(ToS(o.code))
    ensures RedirectError in ValidateOptions(o) <==> IsRedirectCode(o.code) && !Present(o.response)
    ensures forall i, j :: 0 <= i < j < |ValidateOptions(o)| ==> Rank(ValidateOptions(o)[i]) < Rank(ValidateOptions(o)[j])
    ensures forall e :: e in ValidateOptions(o) ==> e == SecretError || e == CodeError || e == RedirectError
  {
    SecretRule(o);
    CodeRule(o);
    CodePattern.MatchIsRegex(ToS(o.code));
    RedirectRule(o);
    RulesInOrder(Rule(!Present(o.secret), SecretError),
                  Rule(Present(o.code) && !CodePattern.Match(ToS(o.code)), CodeError),
                  Rule(IsRedirectCode(o.code) && !Present(o.response), RedirectError));
  }

  lemma SecretRule(o: Config)
    ensures SecretError in ValidateOptions(o) <==> !Present(o.secret)
  {
    MessagesDistinct();
  }

  lemma CodeRule(o: Config)
    ensures CodeError in ValidateOptions(o) <==> Present(o.code) && !CodePattern.Match(ToS(o.code))
  {
    MessagesDistinct();
  }

  lemma RedirectRule(o: Config)
    ensures RedirectError in ValidateOptions(o) <==> IsRedirectCode(o.code) && !Present(o.response)
  {
    MessagesDistinct();
  }

  /** Three optional messages, one per rule, concatenated in rule order. */
  lemma RulesInOrder(e1: seq<string>, e2: seq<string>, e3: seq<string>)
    requires forall e :: e in e1 ==> e == SecretError
    requires forall e :: e in e2 ==> e == CodeError
    requires forall e :: e in e3 ==> e == RedirectError
    requires |e1| <= 1 && |e2| <= 1 && |e3| <= 1
    ensures forall i, j :: 0 <= i < j < |e1 + e2 + e3| ==> Rank((e1 + e2 + e3)[i]) < Rank((e1 + e2 + e3)[j])
    ensures forall e :: e in e1 + e2 + e3 ==> e == SecretError || e == CodeError || e == RedirectError
  {
    MessagesDistinct();
    var all := e1 + e2 + e3;
    forall i | 0 <= i < |all|
      ensures Rank(all[i]) == (if i < |e1| then 0 else if i < |e1| + |e2| then 1 else 2)
    {
      if i < |e1| {
        assert all[i] in e1;
      } else if i < |e1| + |e2| {
        assert all[i] == e2[i - |e1|] && all[i] in e2;
      } else {
        assert all[i] == e3[i - |e1| - |e2|] && all[i] in e3;
      }
    }
  }

  /** `errors.add(:base, message)` when `broken` holds. */
  function Rule(broken: bool, message: string): (added: seq<string>)
    ensures forall m :: m in added <==> broken && m == message
    ensures |added| <= 1
  {
    if broken then [message] else []
  }

  /** The default options pass validation. */
  lemma DefaultOptionsValid()
    ensures ValidateOptions(DefaultOptions()) == []
  {
    var o := DefaultOptions();
    assert !IsUnicodeSpace(o.secret.s[0]);
    var errors := ValidateOptions(o);
    assert forall e :: e !in errors;
  }

  /** A redirect code without a `response` is refused, whether it is written as text or as a number. */
  lemma RedirectNeedsUrl(o: Config)
    requires o.code in {Str("301"), Str("302"), Num(301), Num(302)}
    requires !Present(o.response)
    ensures RedirectError in ValidateOptions(o)
  {
    assert Decimal(301) == "301" && Decimal(302) == "302";
  }

  /** A code written as digits with white space around it, and a code that starts
      with `{`, are both accepted. */
  lemma CodeShapesAccepted(w1: string, d: string, w2: string, template: string)
    requires AllSpace(w1) && AllSpace(w2) && |d| > 0 && AllDigits(d)
    requires '\n' !in template
    ensures CodePattern.Matches(w1 + d + w2)
    ensures CodePattern.Matches("{" + template)
  {
    var s := w1 + d + w2;
    assert s[..|w1|] == w1 && s[|w1|..|w1| + |d|] == d && s[|w1| + |d|..] == w2;
    assert CodePattern.MatchesWith(s, |w1|, |w1| + |d|);
    var t := "{" + template;
    assert t[..0] == "" && t[0..|t|] == t && t[|t|..] == "" && t[1..] == template;
    assert CodePattern.MatchesWith(t, 0, |t|);
  }

  /** A code the validation accepts as digits, with white space around them, answers
      with the number the digits spell. */
  lemma DigitCodeIsStatus(w1: string, d: string, w2: string)
    requires AllSpace(w1) && AllSpace(w2) && |d| >= 1 && AllDigits(d)
    ensures CodePattern.Matches(w1 + d + w2)
    ensures ResponseCode(Str(w1 + d + w2)) == Some(DigitsValue(d))
  {
    CodeShapesAccepted(w1, d, w2, "");
    PaddedDigitsToI(w1, d, w2);
    PaddedDigitsNotBlank(w1, d, w2);
  }

  lemma PaddedDigitsNotBlank(w1: string, d: string, w2: string)
    requires |d| >= 1 && AllDigits(d)
    ensures !Blank(w1 + d + w2)
  {
    var s := w1 + d + w2;
    assert s[|w1|] == d[0];
    DigitNotBlank(s, |w1|);
  }

  lemma DigitNotBlank(s: string, i: nat)
    requires i < |s| && IsDigit(s[i])
    ensures !Blank(s)
  {
    assert !IsUnicodeSpace(s[i]);
  }

  // ---------------------------------------------------------------------------
  // The redirect rule compares the text of the code, but requests are answered with
  // the code's `to_i`: a code such as "0301" or " 301" passes the rule without a
  // `response` and still answers 301.

  /** The code a request is answered with is one of the two redirect codes. */
  predicate RedirectStatus(code: Value) {
    ResponseCode(code) == Some(301) || ResponseCode(code) == Some(302)
  }

  /** `validate_options` with the redirect rule applied to the code requests are answered with. */
  function ValidateOptionsCorrected(o: Config): seq<string> {
    Rule(!Present(o.secret), SecretError)
    + Rule(Present(o.code) && !CodePattern.Match(ToS(o.code)), CodeError)
    + Rule(RedirectStatus(o.code) && !Present(o.response), RedirectError)
  }

  /** As written: the default options with a redirect code that has white space in front
      (" 301") pass validation, have no `response`, and answer 301. */
  lemma PaddedRedirectCodeSlipsThrough(w: string, d: string)
    requires |w| >= 1 && AllSpace(w)
    requires |d| == 3 && d[0] == '3' && d[1] == '0' && d[2] == '1'
    ensures var o := DefaultOptions().(code := Str(w + d));
            ValidateOptions(o) == [] && !Present(o.response) && ResponseCode(o.code) == Some(301)
  {
    PaddedCodeValid(w, d);
    PaddedCodeAnswers(w, d);
  }

  lemma PaddedCodeValid(w: string, d: string)
    requires |w| >= 1 && AllSpace(w)
    requires |d| == 3 && d[0] == '3' && d[1] == '0' && d[2] == '1'
    ensures ValidateOptions(DefaultOptions().(code := Str(w + d))) == []
  {
    var o := DefaultOptions().(code := Str(w + d));
    RedirectDigits(d);
    CodeShapesAccepted(w, d, "", "");
    assert w + d + "" == w + d;
    CodePattern.MatchIsRegex(w + d);
    assert |ToS(o.code)| >= 4;
    DefaultSecretPresent();
    NoErrors(o);
  }

  lemma PaddedCodeAnswers(w: string, d: string)
    requires |w| >= 1 && AllSpace(w)
    requires |d| == 3 && d[0] == '3' && d[1] == '0' && d[2] == '1'
    ensures ResponseCode(Str(w + d)) == Some(301)
  {
    RedirectDigits(d);
    DigitCodeIsStatus(w, d, "");
    assert w + d + "" == w + d;
  }

  lemma DefaultSecretPresent()
    ensures Present(DefaultOptions().secret)
  {
    assert !IsUnicodeSpace(DefaultOptions().secret.s[0]);
  }

  /** Options that break none of the three rules pass validation. */
  lemma NoErrors(o: Config)
    requires Present(o.secret)
    requires !Present(o.code) || CodePattern.Match(ToS(o.code))
    requires !IsRedirectCode(o.code) || Present(o.response)
    ensures ValidateOptions(o) == []
  {
  }

  /** The digits "301" and "302" and their values. */
  lemma RedirectDigits(d: string)
    requires |d| == 3 && d[0] == '3' && d[1] == '0' && (d[2] == '1' || d[2] == '2')
    ensures AllDigits(d) && !Blank(d)
    ensures DigitsValue(d) == if d[2] == '1' then 301 else 302
  {
    assert !IsUnicodeSpace(d[0]);
    assert d[..2][..1] == d[..1];
    assert DigitsValue(d[..1]) == 3;
    assert DigitsValue(d[..2]) == 30;
  }

  /** Corrected: the redirect message is added exactly when the answer would be a redirect
      without a `response`; every code the written rule catches is still caught, so a
      configuration that passes never redirects to nothing. */
  lemma CorrectedRedirectNeedsUrl(o: Config)
    ensures RedirectError in ValidateOptionsCorrected(o) <==> RedirectStatus(o.code) && !Present(o.response)
    ensures IsRedirectCode(o.code) ==> RedirectStatus(o.code)
    ensures ValidateOptionsCorrected(o) == [] && RedirectStatus(o.code) ==> Present(o.response)
  {
    MessagesDistinct();
    if IsRedirectCode(o.code) {
      RedirectTextConverts(o.code);
    }
  }

  /** A code whose text is "301" or "302" converts to that number. */
  lemma RedirectTextConverts(code: Value)
    requires IsRedirectCode(code)
    ensures RedirectStatus(code)
  {
    var s := ToS(code);
    assert |s| == 3 && s[0] == '3' && s[1] == '0' && (s[2] == '1' || s[2] == '2');
    if code.Str? {
      RedirectTextReads(s);
    } else {
      assert code.Num?;
      RedirectTextReads(s);
      ToIDecimal(code.n);
    }
  }

  lemma RedirectTextReads(s: string)
    requires |s| == 3 && s[0] == '3' && s[1] == '0' && (s[2] == '1' || s[2] == '2')
    ensures ToI(s) == 301 || ToI(s) == 302
    ensures RedirectStatus(Str(s))
  {
    RedirectDigits(s);
    DigitsCode(s);
  }

  /** A text of digits alone reads as their value and answers with it. */
  lemma DigitsCode(d: string)
    requires |d| >= 1 && AllDigits(d)
    ensures ToI(d) == DigitsValue(d)
    ensures ResponseCode(Str(d)) == Some(DigitsValue(d))
  {
    DigitsToI(d);
    DigitNotBlank(d, 0);
  }
}

=== FILE: ruby_text.dfy ===
/**
 The parts of Ruby's String class (and of ActiveSupport's `blank?`) that the
 webhook agent observes: whitespace classes, `strip`, `downcase`/`upcase`,
 `split`, `join`, `to_i` and `Integer#to_s`.
 */
module RubyText {

  /** ASCII whitespace: what the regexp class `\s` matches and what `String#to_i` skips. */
  predicate IsSpace(c: char) {
    c == ' ' || c == '\t' || c == '\n' || c == '\U{000B}' || c == '\U{000C}' || c == '\r'
  }

  /** What `String#strip` removes at either end: NUL and ASCII whitespace. */
  predicate IsStripSpace(c: char) {
    c == '\0' || IsSpace(c)
  }

  /** Unicode White_Space, the class `[[:space:]]` that ActiveSupport's `String#blank?` uses. */
  predicate IsUnicodeSpace(c: char) {
    IsSpace(c)
    || c as int == 0x85 || c as int == 0xA0 || c as int == 0x1680
    || (0x2000 <= c as int <= 0x200A)
    || c as int == 0x2028 || c as int == 0x2029 || c as int == 0x202F
    || c as int == 0x205F || c as int == 0x3000
  }

  predicate IsDigit(c: char) {
    '0' <= c <= '9'
  }

  predicate IsUpper(c: char) {
    'A' <= c <= 'Z'
  }

  predicate IsLower(c: char) {
    'a' <= c <= 'z'
  }

  /** `String#blank?`: empty or made of white space only. */
  predicate Blank(s: string) {
    forall i :: 0 <= i < |s| ==> IsUnicodeSpace(s[i])
  }

  predicate AllDigits(s: string) {
    forall i :: 0 <= i < |s| ==> IsDigit(s[i])
  }

  predicate AllSpace(s: string) {
    forall i :: 0 <= i < |s| ==> IsSpace(s[i])
  }

  /** The suffix of `s` that is left after dropping every leading character satisfying `p`. */
  function DropWhile(s: string, p: char -> bool): (r: string)
    ensures |r| <= |s| && r == s[|s| - |r|..]
    ensures forall i :: 0 <= i < |s| - |r| ==> p(s[i])
    ensures |r| == 0 || !p(r[0])
    decreases |s|
  {
    if |s| > 0 && p(s[0]) then DropWhile(s[1..], p) else s
  }

  /** The prefix of `s` that is left after dropping every trailing character satisfying `p`. */
  function DropWhileEnd(s: string, p: char -> bool): (r: string)
    ensures |r| <= |s| && r == s[..|r|]
    ensures forall i :: |r| <= i < |s| ==> p(s[i])
    ensures |r| == 0 || !p(r[|r| - 1])
    decreases |s|
  {
    if |s| > 0 && p(s[|s| - 1]) then DropWhileEnd(s[..|s| - 1], p) else s
  }

  /** `String#strip`. */
  function Strip(s: string): (r: string)
    ensures |r| == 0 || (!IsStripSpace(r[0]) && !IsStripSpace(r[|r| - 1]))
    ensures |r| == 0 <==> forall i :: 0 <= i < |s| ==> IsStripSpace(s[i])
    ensures |s| == 0 || (!IsStripSpace(s[0]) && !IsStripSpace(s[|s| - 1])) ==> r == s
  {
    var front := DropWhile(s, IsStripSpace);
    var r := DropWhileEnd(front, IsStripSpace);
    assert |r| > 0 ==> r[0] == front[0];
    r
  }

  /** `strip` removes only a run of NUL and white space at each end: the result is the
      part of `s` between them. */
  lemma StripIsInfix(s: string)
    ensures StrippedAt(s, |s| - |DropWhile(s, IsStripSpace)|, Strip(s))
  {
    var front := DropWhile(s, IsStripSpace);
    var r := DropWhileEnd(front, IsStripSpace);
    TrimmedInfix(s, front, r);
  }

  lemma TrimmedInfix(s: string, front: string, r: string)
    requires |front| <= |s| && front == s[|s| - |front|..]
    requires forall i :: 0 <= i < |s| - |front| ==> IsStripSpace(s[i])
    requires |r| <= |front| && r == front[..|r|]
    requires forall i :: |r| <= i < |front| ==> IsStripSpace(front[i])
    ensures StrippedAt(s, |s| - |front|, r)
  {
    var a := |s| - |front|;
    assert s[a..a + |r|] == front[..|r|];
    forall i | a + |r| <= i < |s|
      ensures IsStripSpace(s[i])
    {
      assert s[i] == front[i - a];
    }
  }

  /** `r` is the part of `s` that starts at `a`, with only NUL and white space around it. */
  predicate StrippedAt(s: string, a: int, r: string) {
    0 <= a && a + |r| <= |s| && r == s[a..a + |r|]
    && (forall i :: 0 <= i < a ==> IsStripSpace(s[i]))
    && (forall i :: a + |r| <= i < |s| ==> IsStripSpace(s[i]))
  }

  function Lower(c: char): char {
    if IsUpper(c) then (c as int + 32) as char else c
  }

  function Upper(c: char): char {
    if IsLower(c) then (c as int - 32) as char else c
  }

  /** `String#downcase`, on the ASCII letters. */
  function Downcase(s: string): (r: string)
    ensures |r| == |s|
    ensures forall i :: 0 <= i < |s| ==> r[i] == Lower(s[i]) && !IsUpper(r[i])
    decreases |s|
  {
    if |s| == 0 then "" else [Lower(s[0])] + Downcase(s[1..])
  }

  /** `String#upcase`, on the ASCII letters. */
  function Upcase(s: string): (r: string)
    ensures |r| == |s|
    ensures forall i :: 0 <= i < |s| ==> r[i] == Upper(s[i]) && !IsLower(r[i])
    decreases |s|
  {
    if |s| == 0 then "" else [Upper(s[0])] + Upcase(s[1..])
  }

  /** `Array#join(glue)` on strings. */
  function Join(parts: seq<string>, glue: string): string
    decreases |parts|
  {
    if |parts| == 0 then ""
    else if |parts| == 1 then parts[0]
    else parts[0] + glue + Join(parts[1..], glue)
  }

  function IndexOf(s: string, c: char): (i: nat)
    requires c in s
    ensures i < |s| && s[i] == c && c !in s[..i]
  {
    if s[0] == c then 0 else 1 + IndexOf(s[1..], c)
  }

  /** Every field between separators, empty ones included. */
  function SplitAll(s: string, sep: char): (parts: seq<string>)
    ensures |parts| >= 1
    ensures forall i :: 0 <= i < |parts| ==> sep !in parts[i]
    decreases |s|
  {
    if sep !in s then [s]
    else
      var i := IndexOf(s, sep);
      [s[..i]] + SplitAll(s[i + 1..], sep)
  }

  /** Joining the fields with the separator gives back the text they were split from. */
  lemma {:induction false} SplitJoin(s: string, sep: char)
    ensures Join(SplitAll(s, sep), [sep]) == s
    decreases |s|
  {
    if sep in s {
      var i := IndexOf(s, sep);
      var rest := SplitAll(s[i + 1..], sep);
      SplitJoin(s[i + 1..], sep);
      assert ([s[..i]] + rest)[1..] == rest;
      assert s == s[..i] + [sep] + s[i + 1..];
    }
  }

  /** Drops the empty strings at the end of `parts`. */
  function DropTrailingEmpty(parts: seq<string>): (r: seq<string>)
    ensures |r| <= |parts| && r == parts[..|r|]
    ensures forall i :: |r| <= i < |parts| ==> parts[i] == ""
    ensures |r| == 0 || r[|r| - 1] != ""
    decreases |parts|
  {
    if |parts| > 0 && parts[|parts| - 1] == "" then DropTrailingEmpty(parts[..|parts| - 1])
    else parts
  }

  /** `String#split` with a one-character separator: trailing empty fields are removed. */
  function Split(s: string, sep: char): seq<string> {
    DropTrailingEmpty(SplitAll(s, sep))
  }

  /** The digits `String#to_i` reads from the front of `u`: a digit run in which a
      single underscore may separate two digits; the underscores are dropped. */
  function DigitRun(u: string): (d: string)
    ensures AllDigits(d)
    ensures |d| == 0 <==> |u| == 0 || !IsDigit(u[0])
    decreases |u|
  {
    if |u| == 0 || !IsDigit(u[0]) then ""
    else if |u| >= 3 && u[1] == '_' && IsDigit(u[2]) then [u[0]] + DigitRun(u[2..])
    else [u[0]] + DigitRun(u[1..])
  }

  function DigitValue(c: char): nat
    requires IsDigit(c)
  {
    assert '0' as int <= c as int;
    c as int - '0' as int
  }

  function DigitChar(n: nat): (c: char)
    requires n < 10
    ensures IsDigit(c) && DigitValue(c) == n
  {
    ('0' as int + n) as char
  }

  /** The number a string of decimal digits denotes ("" denotes 0). */
  function DigitsValue(d: string): nat
    requires AllDigits(d)
    decreases |d|
  {
    if |d| == 0 then 0 else 10 * DigitsValue(d[..|d| - 1]) + DigitValue(d[|d| - 1])
  }

  /** The unsigned part of `String#to_i`: an optional `0d` radix prefix, then a digit run. */
  function Unsigned(t: string): nat {
    var u := if |t| >= 2 && t[0] == '0' && (t[1] == 'd' || t[1] == 'D') then t[2..] else t;
    var d := DigitRun(u);
    DigitsValue(d)
  }

  /** `String#to_i` (base 10): leading ASCII whitespace, an optional sign, then digits;
      whatever follows is ignored and a string with no digits gives 0. */
  function ToI(s: string): int {
    var t := DropWhile(s, IsSpace);
    if |t| > 0 && t[0] == '-' then -(Unsigned(t[1..]) as int)
    else if |t| > 0 && t[0] == '+' then Unsigned(t[1..])
    else Unsigned(t)
  }

  /** The decimal digits of a natural number, most significant first. */
  function Digits(n: nat): (d: string)
    ensures |d| >= 1 && AllDigits(d)
    ensures DigitsValue(d) == n
    decreases n
  {
    if n < 10 then [DigitChar(n)]
    else
      var d := Digits(n / 10) + [DigitChar(n % 10)];
      assert d[..|d| - 1] == Digits(n / 10);
      d
  }

  /** `Integer#to_s`. */
  function Decimal(n: int): (s: string)
    ensures |s| >= 1 && (s[0] == '-' || IsDigit(s[0]))
  {
    if n < 0 then "-" + Digits(-n) else Digits(n)
  }

  /** A digit run not followed by a digit or an underscore is read whole. */
  lemma {:induction false} DigitRunOfDigits(d: string, w: string)
    requires AllDigits(d)
    requires |w| == 0 || (!IsDigit(w[0]) && w[0] != '_')
    ensures DigitRun(d + w) == d
    decreases |d|
  {
    if |d| > 0 {
      var u := d + w;
      assert |u| >= 2 ==> u[1] != '_' by {
        if |d| >= 2 {
          assert u[1] == d[1];
        } else if |u| >= 2 {
          assert u[1] == w[0];
        }
      }
      assert u[1..] == d[1..] + w;
      DigitRunOfDigits(d[1..], w);
    }
  }

  /** A digit string followed by nothing or by white space reads as its value. */
  lemma UnsignedDigits(d: string, w: string)
    requires |d| >= 1 && AllDigits(d)
    requires |w| == 0 || IsSpace(w[0])
    ensures Unsigned(d + w) == DigitsValue(d)
  {
    var t := d + w;
    assert t[0] == d[0];
    assert |t| >= 2 ==> t[1] != 'd' && t[1] != 'D' by {
      if |d| >= 2 {
        assert t[1] == d[1];
      } else if |t| >= 2 {
        assert t[1] == w[0];
      }
    }
    UnsignedPlain(t);
    DigitRunOfDigits(d, w);
  }

  /** Without a `0d` prefix the unsigned reading is the value of the leading digit run. */
  lemma UnsignedPlain(t: string)
    requires |t| >= 2 ==> t[1] != 'd' && t[1] != 'D'
    ensures Unsigned(t) == DigitsValue(DigitRun(t))
  {
  }

  /** When the text after the leading white space starts with a digit, `to_i` is its unsigned reading. */
  lemma ToIUnsigned(s: string, t: string)
    requires DropWhile(s, IsSpace) == t
    requires |t| >= 1 && IsDigit(t[0])
    ensures ToI(s) == Unsigned(t)
  {
  }

  /** When the text after the leading white space starts with `-`, `to_i` is the negated
      unsigned reading of the rest. */
  lemma ToINegative(s: string, t: string)
    requires DropWhile(s, IsSpace) == t
    requires |t| >= 1 && t[0] == '-'
    ensures ToI(s) == -(Unsigned(t[1..]) as int)
  {
  }

  /** `to_i` reads back what `to_s` writes: `n.to_s.to_i == n`. */
  lemma ToIDecimal(n: int)
    ensures ToI(Decimal(n)) == n
  {
    if n < 0 {
      NegativeDecimal(n);
    } else {
      NonNegativeDecimal(n);
    }
  }

  lemma NegativeDecimal(n: int)
    requires n < 0
    ensures ToI(Decimal(n)) == n
  {
    var d := Digits(-n);
    var s := "-" + d;
    assert Decimal(n) == s;
    NoLeadingSpace(s);
    assert s[1..] == d + "";
    UnsignedDigits(d, "");
    ToINegative(s, s);
  }

  lemma NonNegativeDecimal(n: int)
    requires n >= 0
    ensures ToI(Decimal(n)) == n
  {
    var s := Digits(n);
    assert Decimal(n) == s;
    NoLeadingSpace(s);
    assert s + "" == s;
    UnsignedDigits(s, "");
    ToIUnsigned(s, s);
  }

  /** A text that does not start with white space loses nothing to the leading-space skip. */
  lemma NoLeadingSpace(s: string)
    requires |s| == 0 || !IsSpace(s[0])
    ensures DropWhile(s, IsSpace) == s
  {
    DropSpaceFront("", s);
    assert "" + s == s;
  }

  /** A text of digits alone converts to their value. */
  lemma DigitsToI(d: string)
    requires |d| >= 1 && AllDigits(d)
    ensures ToI(d) == DigitsValue(d)
  {
    NoLeadingSpace(d);
    ToIUnsigned(d, d);
    assert d + "" == d;
    UnsignedDigits(d, "");
  }

  /** A text made of white space, digits and white space converts to the value of its digits. */
  lemma PaddedDigitsToI(w1: string, d: string, w2: string)
    requires AllSpace(w1) && AllSpace(w2)
    requires |d| >= 1 && AllDigits(d)
    ensures ToI(w1 + d + w2) == DigitsValue(d)
  {
    var t := d + w2;
    assert w1 + d + w2 == w1 + t;
    assert t[0] == d[0];
    DropSpaceFront(w1, t);
    ToIUnsigned(w1 + t, t);
    UnsignedDigits(d, w2);
  }

  /** Dropping leading white space from `w + t` leaves `t` when `t` starts with something else. */
  lemma {:induction false} DropSpaceFront(w: string, t: string)
    requires AllSpace(w)
    requires |t| == 0 || !IsSpace(t[0])
    ensures DropWhile(w + t, IsSpace) == t
    decreases |w|
  {
    if |w| == 0 {
      assert w + t == t;
    } else {
      assert (w + t)[0] == w[0];
      assert (w + t)[1..] == w[1..] + t;
      DropSpaceFront(w[1..], t);
    }
  }
}

=== FILE: values.dfy ===
/**
 Ruby values as they reach the agent: request parameters, option values after
 interpolation, and parsed JSON all live in one universe, with `nil` as `Null`.
 */
module Values {
  import opened RubyText

  datatype Option<+T> = None | Some(value: T)

  /** A Ruby object built from JSON-like parts (floating-point numbers are not modelled). */
  datatype Value =
    | Null
    | Bool(b: bool)
    | Num(n: int)
    | Str(s: string)
    | Arr(items: seq<Value>)
    | Obj(fields: map<string, Value>)

  /** `Hash#[]`: a missing key reads as `nil`. */
  function Lookup(h: map<string, Value>, key: string): Value {
    if key in h then h[key] else Null
  }

  /** Ruby truthiness: everything except `nil` and `false`. */
  predicate Truthy(v: Value) {
    !v.Null? && v != Bool(false)
  }

  /** ActiveSupport's `present?`, the negation of `blank?`. */
  predicate Present(v: Value) {
    match v
    case Null => false
    case Bool(b) => b
    case Num(_) => true
    case Str(s) => !Blank(s)
    case Arr(items) => |items| > 0
    case Obj(fields) => |fields| > 0
  }

  /** ActiveSupport's `presence`: the value itself when present, otherwise `nil`. */
  function Presence(v: Value): (r: Value)
    ensures r.Null? <==> !Present(v)
    ensures !r.Null? ==> r == v
  {
    if Present(v) then v else Null
  }

  /** `Object#to_s`. The `inspect` text of an array or a hash is replaced by a
      stand-in with the same first character and no line break. */
  function ToS(v: Value): (s: string)
    ensures v.Str? ==> s == v.s
    ensures v.Null? ==> s == ""
    ensures v.Arr? ==> |s| > 0 && s[0] == '['
    ensures v.Obj? ==> |s| > 0 && s[0] == '{' && '\n' !in s
  {
    match v
    case Null => ""
    case Bool(b) => if b then "true" else "false"
    case Num(n) => Decimal(n)
    case Str(s) => s
    case Arr(_) => "[...]"
    case Obj(_) => "{...}"
  }
}

=== FILE: verbs.dfy ===
/**
 The HTTP verb allow-list: the `verbs` option (default "post") is split on
 commas, each field is stripped and lower-cased, and blank fields are dropped.
 Because the default is chosen with `||` and not with `presence`, an empty
 `verbs` text is kept and yields an empty list.
 */
module Verbs {
  import opened RubyText
  import opened Values

  /** One field of the list as the agent normalises it: `x.strip.downcase`. */
  function Normalize(field: string): string {
    Downcase(Strip(field))
  }

  /** An entry of a parsed list: not blank, nothing to strip, no upper-case letter. */
  predicate WellFormedVerb(v: string) {
    !Blank(v) && Strip(v) == v && forall i :: 0 <= i < |v| ==> !IsUpper(v[i])
  }

  /** `fields.map { |x| x.strip.downcase }`. */
  function NormalizeAll(fields: seq<string>): (r: seq<string>)
    ensures |r| == |fields|
    ensures forall i :: 0 <= i < |fields| ==> r[i] == Normalize(fields[i])
    decreases |fields|
  {
    if |fields| == 0 then [] else [Normalize(fields[0])] + NormalizeAll(fields[1..])
  }

  /** `select { |x| x.present? }`: the entries that are not blank, in order, repeats kept. */
  function KeepPresent(xs: seq<string>): (r: seq<string>)
    ensures forall v :: v in r <==> v in xs && !Blank(v)
    ensures |r| <= |xs|
    decreases |xs|
  {
    if |xs| == 0 then []
    else
      var rest := KeepPresent(xs[1..]);
      assert forall v :: v in xs <==> v == xs[0] || v in xs[1..];
      if Blank(xs[0]) then rest else [xs[0]] + rest
  }

  /** Every non-blank entry is kept as many times as it occurs, and no blank one is kept. */
  lemma {:induction false} KeepPresentCounts(xs: seq<string>)
    ensures forall v :: multiset(KeepPresent(xs))[v] == if Blank(v) then 0 else multiset(xs)[v]
    decreases |xs|
  {
    if |xs| > 0 {
      KeepPresentCounts(xs[1..]);
      assert xs == [xs[0]] + xs[1..];
    }
  }

  /** Selecting from a concatenation selects from each part and keeps their order. */
  lemma {:induction false} KeepPresentAppend(a: seq<string>, b: seq<string>)
    ensures KeepPresent(a + b) == KeepPresent(a) + KeepPresent(b)
    decreases |a|
  {
    if |a| == 0 {
      assert a + b == b;
    } else {
      assert (a + b)[1..] == a[1..] + b;
      KeepPresentAppend(a[1..], b);
    }
  }

  /** The allow-list a `verbs` text denotes. */
  function ParseVerbs(text: string): seq<string> {
    KeepPresent(NormalizeAll(Split(text, ',')))
  }

  /** Every entry of a parsed list is well formed. */
  lemma ParsedVerbsWellFormed(text: string)
    ensures forall i :: 0 <= i < |ParseVerbs(text)| ==> WellFormedVerb(ParseVerbs(text)[i])
  {
    var verbs := ParseVerbs(text);
    forall i | 0 <= i < |verbs|
      ensures WellFormedVerb(verbs[i])
    {
      ParsedVerbWellFormed(text, verbs[i]);
    }
  }

  lemma ParsedVerbWellFormed(text: string, v: string)
    requires v in ParseVerbs(text)
    ensures WellFormedVerb(v)
  {
    var normalized := NormalizeAll(Split(text, ','));
    assert v in normalized && !Blank(v);
    var j :| 0 <= j < |normalized| && normalized[j] == v;
    NormalizedIsWellFormed(Split(text, ',')[j]);
  }

  /** A verb is allowed exactly when some comma-separated field normalises to it and it
      is not blank; the empty fields that `split` drops at the end make no difference. */
  lemma ParsedVerbsMembers(text: string, v: string)
    ensures v in ParseVerbs(text) <==> !Blank(v) && exists f :: f in SplitAll(text, ',') && Normalize(f) == v
  {
    if !Blank(v) && exists f :: f in SplitAll(text, ',') && Normalize(f) == v {
      var f :| f in SplitAll(text, ',') && Normalize(f) == v;
      FieldIsAllowed(text, f);
    }
    if v in ParseVerbs(text) {
      AllowedHasField(text, v);
    }
  }

  /** Every field that does not normalise to a blank text is allowed. */
  lemma FieldIsAllowed(text: string, f: string)
    requires f in SplitAll(text, ',') && !Blank(Normalize(f))
    ensures Normalize(f) in ParseVerbs(text)
  {
    var all := SplitAll(text, ',');
    var fields := Split(text, ',');
    var normalized := NormalizeAll(fields);
    var j :| 0 <= j < |all| && all[j] == f;
    assert f != "" by {
      NotBlankStripped(f);
    }
    assert j < |fields|;
    assert fields[j] == f;
    assert normalized[j] == Normalize(f);
  }

  /** Every allowed verb comes from a field. */
  lemma AllowedHasField(text: string, v: string)
    requires v in ParseVerbs(text)
    ensures !Blank(v) && exists f :: f in SplitAll(text, ',') && Normalize(f) == v
  {
    assert v in NormalizeAll(Split(text, ','));
    NormalizedHasField(text, v);
  }

  lemma NormalizedHasField(text: string, v: string)
    requires v in NormalizeAll(Split(text, ','))
    ensures exists f :: f in SplitAll(text, ',') && Normalize(f) == v
  {
    PrefixHasField(SplitAll(text, ','), Split(text, ','), v);
  }

  lemma PrefixHasField(all: seq<string>, fields: seq<string>, v: string)
    requires |fields| <= |all| && fields == all[..|fields|]
    requires v in NormalizeAll(fields)
    ensures exists f :: f in all && Normalize(f) == v
  {
    var normalized := NormalizeAll(fields);
    var j :| 0 <= j < |normalized| && normalized[j] == v;
    assert fields[j] == all[j];
  }

  /** Normalising a field gives a well-formed entry unless the result is blank. */
  lemma NormalizedIsWellFormed(f: string)
    requires !Blank(Normalize(f))
    ensures WellFormedVerb(Normalize(f))
  {
    NotBlankStripped(f);
    NormalizedIsStripped(f);
  }

  lemma NotBlankStripped(f: string)
    requires !Blank(Normalize(f))
    ensures |Strip(f)| > 0
  {
  }

  /** Lower-casing a stripped text leaves nothing to strip. */
  lemma NormalizedIsStripped(f: string)
    requires |Strip(f)| > 0
    ensures Strip(Normalize(f)) == Normalize(f)
  {
    var s := Strip(f);
    var v := Downcase(s);
    assert v[0] == Lower(s[0]) && v[|v| - 1] == Lower(s[|s| - 1]);
    LowerKeepsNonSpace(s[0]);
    LowerKeepsNonSpace(s[|s| - 1]);
    StripClean(v);
  }

  lemma LowerKeepsNonSpace(c: char)
    requires !IsStripSpace(c)
    ensures !IsStripSpace(Lower(c))
  {
  }

  lemma StripClean(v: string)
    requires |v| > 0 && !IsStripSpace(v[0]) && !IsStripSpace(v[|v| - 1])
    ensures Strip(v) == v
  {
  }

  /** A well-formed entry normalises to itself. */
  lemma NormalizeWellFormed(v: string)
    requires WellFormedVerb(v)
    ensures Normalize(v) == v
  {
    assert Downcase(v) == v;
  }

  /** The text the list is read from: `interpolated['verbs'] || 'post'`; `None` when
      that value is not a string, which makes line 67 raise. */
  function VerbSource(v: Value): Option<string> {
    if !Truthy(v) then Some("post")
    else if v.Str? then Some(v.s)
    else None
  }

  /** The allow-list for a `verbs` option value; `None` when building it raises. */
  function VerbList(v: Value): (r: Option<seq<string>>)
    ensures !Truthy(v) ==> r == Some(["post"])
    ensures v.Str? ==> r == Some(ParseVerbs(v.s))
    ensures r.None? <==> Truthy(v) && !v.Str?
  {
    PostOnly();
    match VerbSource(v)
    case None => None
    case Some(text) => Some(ParseVerbs(text))
  }

  /** The default text "post" denotes the one-entry list ["post"]. */
  lemma PostOnly()
    ensures ParseVerbs("post") == ["post"]
  {
    PostIsWellFormed("post");
    SingleVerb("post");
  }

  lemma PostIsWellFormed(v: string)
    requires |v| == 4 && v[0] == 'p' && v[1] == 'o' && v[2] == 's' && v[3] == 't'
    ensures ',' !in v && WellFormedVerb(v)
  {
    assert forall i :: 0 <= i < |v| ==> IsLower(v[i]);
    assert !IsUnicodeSpace(v[0]);
    assert !IsStripSpace(v[0]) && !IsStripSpace(v[|v| - 1]);
    assert Strip(v) == v;
  }

  /** A text with no comma that is already a well-formed entry denotes the list of itself. */
  lemma SingleVerb(v: string)
    requires ',' !in v && WellFormedVerb(v)
    ensures ParseVerbs(v) == [v]
  {
    assert Split(v, ',') == [v];
    NormalizeWellFormed(v);
    assert NormalizeAll([v]) == [v];
    assert KeepPresent([v]) == [v];
  }

  /** An explicitly empty `verbs` text allows no verb at all. */
  lemma EmptyTextAllowsNothing()
    ensures VerbList(Str("")) == Some([])
  {
    assert SplitAll("", ',') == [""];
    assert Split("", ',') == [];
  }

  /** The message of a verb rejection: the allowed verbs, joined by `/`, upper-cased. */
  function VerbMessage(verbs: seq<string>): string {
    "Please use " + Upcase(Join(verbs, "/")) + " requests only"
  }
}

=== FILE: webhook.dfy ===
/**
 The admission pipeline of the raw webhook agent: one inbound request is
 checked against the shared secret, the verb allow-list and, when configured,
 reCAPTCHA, and is then turned into one event and one HTTP response.

 The host's collaborators are parameters (`Host`): the options as interpolated
 in the agent's own context, the `response` option interpolated in a given
 context, `boolify`, `JSON.parse`, and the POST to the reCAPTCHA verifier.
 */
module Webhook {
  import opened Values
  import opened Options
  import opened Verbs

  /** Parameters the host's router adds; they are not payload. */
  const RoutingKeys: set<string> := {"action", "controller", "agent_id", "user_id", "format"}
  /** The keys of an event payload. */
  const PayloadNames: set<string> := {"body", "query", "json"}
  const SecretParam := "secret"
  const TokenParam := "g-recaptcha-response"
  const NotAuthorized := "Not Authorized"
  const Unauthorized := 401
  const DefaultResponse := "Event Created"
  const PlainText := "text/plain"

  /** An inbound request: the method symbol as text (`verb`) ("post", "get", ...), the raw body,
      the query-string parameters, all parameters, and `env['REMOTE_ADDR']`. */
  datatype Request = Request(
    verb: string,
    rawPost: string,
    queryParameters: map<string, Value>,
    params: map<string, Value>,
    remoteAddr: Value)

  /** The payload of the one event an accepted request creates. */
  datatype Payload = Payload(body: string, query: map<string, Value>, json: Value) {
    function AsHash(): map<string, Value> {
      map["body" := Str(body), "query" := Obj(query), "json" := json]
    }
  }

  /** The form the agent posts to the reCAPTCHA verifier. */
  datatype VerifyRequest = VerifyRequest(secret: Value, response: Value, remoteIp: Option<Value>)

  /** What the POST to the verifier gives: an exception, or a reply body. */
  datatype VerifyReply = TransportError(message: string) | Reply(body: string)

  /** The two response shapes of an accepted request. */
  datatype Response =
    | Plain(text: Value, code: int)
    | WithHeaders(text: Value, code: int, contentType: string, headers: Value)

  /** Exceptions the pipeline lets escape. */
  datatype Failure =
    | VerbsNotText           // line 67 on a `verbs` value that is not a string
    | CodeNotConvertible     // `to_i` on a `code` value that has none
    | VerifierBodyNotJson    // `JSON.parse` of the verifier's reply fails
    | VerifierBodyNotIndexable  // `['success']` on a parsed reply that cannot take it

  datatype Outcome =
    | Reject(message: string, status: int)
    | Accept(event: Payload, response: Response)
    | Raise(failure: Failure)

  /** The outcome together with the verifier requests that were sent. */
  datatype Handled = Handled(outcome: Outcome, verifierCalls: seq<VerifyRequest>)

  /** The host's side of a request. */
  datatype Host = Host(
    settings: Config,
    responseIn: map<string, Value> -> Value,
    boolify: Value -> bool,
    parseJson: string -> Option<Value>,
    verify: VerifyRequest -> VerifyReply)

  /** How the verifier's reply reads. */
  datatype Verdict = Success | Refused | Broken(failure: Failure)

  /** `parse_json`: the parsed body, or an empty object when parsing fails. */
  function ParseJson(host: Host, raw: string): (v: Value)
    ensures host.parseJson(raw).Some? ==> v == host.parseJson(raw).value
    ensures v == Obj(map[]) <==> host.parseJson(raw) in {None, Some(Obj(map[]))}
  {
    match host.parseJson(raw)
    case Some(parsed) => parsed
    case None => Obj(map[])
  }

  /** `JSON.parse(body)['success']` read for truth: an object is asked for its `success`
      member, a string answers whether it contains "success" (`String#[]`), and anything
      else cannot be indexed by a string. */
  function ReadVerdict(host: Host, body: string): (r: Verdict)
    ensures host.parseJson(body).None? <==> r == Broken(VerifierBodyNotJson)
    ensures forall fields :: host.parseJson(body) == Some(Obj(fields)) ==>
              (r == Success <==> Truthy(Lookup(fields, "success"))) && !r.Broken?
    ensures forall s :: host.parseJson(body) == Some(Str(s)) ==>
              (r == Success <==> HasInfix(s, "success")) && !r.Broken?
    ensures r == Broken(VerifierBodyNotIndexable) <==>
              host.parseJson(body).Some? && !host.parseJson(body).value.Obj? && !host.parseJson(body).value.Str?
  {
    match host.parseJson(body)
    case None => Broken(VerifierBodyNotJson)
    case Some(Obj(fields)) => if Truthy(Lookup(fields, "success")) then Success else Refused
    case Some(Str(s)) => if HasInfix(s, "success") then Success else Refused
    case Some(_) => Broken(VerifierBodyNotIndexable)
  }

  /** `String#[](word)` is truthy exactly when `word` occurs in the text. */
  predicate HasInfix(s: string, word: string)
    decreases |s|
  {
    |s| >= |word| && (s[..|word|] == word || HasInfix(s[1..], word))
  }

  /** `x || 'Event Created'`. */
  function OrDefaultResponse(rendered: Value): Value {
    if Truthy(rendered) then rendered else Str(DefaultResponse)
  }

  /** `receive_web_request`. */
  function ReceiveWebRequest(host: Host, req: Request): (h: Handled)
    ensures h.outcome.Reject? ==> h.outcome.status == Unauthorized
    ensures |h.verifierCalls| <= 1
    ensures !SecretMatches(host, req) ==> h == Handled(Reject(NotAuthorized, Unauthorized), [])
    ensures SecretMatches(host, req) && VerbList(host.settings.verbs).Some?
            && req.verb !in VerbList(host.settings.verbs).value
            ==> h == Handled(Reject(VerbMessage(VerbList(host.settings.verbs).value), Unauthorized), [])
    ensures h.outcome.Accept? <==> Admitted(host, req)
    ensures h.outcome.Accept? ==> h.outcome.event == EventFor(host, req)
    ensures h.outcome.Accept? ==> h.outcome.response.code == ResponseCode(host.settings.code).value
    ensures h.outcome.Accept? ==> h.outcome.response.text == OrDefaultResponse(host.responseIn(RenderContext(host, req)))
    ensures h.outcome.Accept? ==> (h.outcome.response.WithHeaders? <==> Present(host.settings.responseHeaders))
    ensures h.outcome.Accept? && h.outcome.response.WithHeaders? ==>
              h.outcome.response.contentType == PlainText && h.outcome.response.headers == host.settings.responseHeaders
    ensures h.verifierCalls != [] <==> PassedBeforeCaptcha(host, req) && CaptchaRequired(host) && Truthy(Token(req))
    ensures h.verifierCalls != [] ==> h.verifierCalls == [VerifierCall(host, req)]
  {
    var params := req.params - RoutingKeys;
    var secret := Lookup(params, SecretParam);
    SecretSurvivesRouting(req.params);
    if secret != host.settings.secret then Handled(Reject(NotAuthorized, Unauthorized), [])
    else AfterSecret(host, req, params - {SecretParam})
  }

  /** The verb and code steps, and what follows them, once the secret has matched. */
  function AfterSecret(host: Host, req: Request, params: map<string, Value>): (h: Handled)
    requires SecretMatches(host, req)
    requires params == req.params - (RoutingKeys + {SecretParam})
    ensures h.outcome.Reject? ==> h.outcome.status == Unauthorized
    ensures VerbList(host.settings.verbs).Some? && req.verb !in VerbList(host.settings.verbs).value
            ==> h == Handled(Reject(VerbMessage(VerbList(host.settings.verbs).value), Unauthorized), [])
    ensures h.outcome.Accept? <==> Admitted(host, req)
    ensures h.outcome.Accept? ==> h.outcome == Accept(EventFor(host, req), ResponseFor(host, req, ResponseCode(host.settings.code).value))
    ensures h.verifierCalls != [] <==> PassedBeforeCaptcha(host, req) && CaptchaRequired(host) && Truthy(Token(req))
    ensures h.verifierCalls != [] ==> h.verifierCalls == [VerifierCall(host, req)]
  {
    match VerbList(host.settings.verbs)
    case None => Handled(Raise(VerbsNotText), [])
    case Some(verbs) =>
      if req.verb !in verbs then Handled(Reject(VerbMessage(verbs), Unauthorized), [])
      else AfterVerb(host, req, params)
  }

  /** The code step, and what follows it, once the secret and the verb have passed. */
  function AfterVerb(host: Host, req: Request, params: map<string, Value>): (h: Handled)
    requires SecretMatches(host, req) && VerbAllowed(host, req)
    requires params == req.params - (RoutingKeys + {SecretParam})
    ensures h.outcome.Reject? ==> h.outcome.status == Unauthorized
    ensures ResponseCode(host.settings.code).None? ==> h == Handled(Raise(CodeNotConvertible), [])
    ensures h.outcome.Accept? <==> Admitted(host, req)
    ensures h.outcome.Accept? ==> h.outcome == Accept(EventFor(host, req), ResponseFor(host, req, ResponseCode(host.settings.code).value))
    ensures h.verifierCalls != [] <==> PassedBeforeCaptcha(host, req) && CaptchaRequired(host) && Truthy(Token(req))
    ensures h.verifierCalls != [] ==> h.verifierCalls == [VerifierCall(host, req)]
  {
    match ResponseCode(host.settings.code)
    case None => Handled(Raise(CodeNotConvertible), [])
    case Some(code) => CheckRecaptcha(host, req, params, code)
  }

  /** The reCAPTCHA step and what follows it, on the parameters left after the secret is removed. */
  function CheckRecaptcha(host: Host, req: Request, params: map<string, Value>, code: int): (h: Handled)
    requires params == req.params - (RoutingKeys + {SecretParam})
    requires ResponseCode(host.settings.code) == Some(code)
    ensures h.outcome.Reject? ==> h.outcome.status == Unauthorized
    ensures h.outcome.Accept? <==> CaptchaPasses(host, req)
    ensures h.outcome.Accept? ==> h.outcome == Accept(EventFor(host, req), ResponseFor(host, req, code))
    ensures h.verifierCalls != [] <==> CaptchaRequired(host) && Truthy(Token(req))
    ensures h.verifierCalls != [] ==> h.verifierCalls == [VerifierCall(host, req)]
  {
    var recaptchaSecret := Presence(host.settings.recaptchaSecret);
    if recaptchaSecret.Null? then Respond(host, req, code, [])
    else
      var token := Lookup(params, TokenParam);
      TokenSurvives(req.params);
      if !Truthy(token) then Handled(Reject(NotAuthorized, Unauthorized), [])
      else
        var remoteIp := if host.boolify(host.settings.recaptchaSendRemoteAddr) then Some(req.remoteAddr) else None;
        var call := VerifyRequest(recaptchaSecret, token, remoteIp);
        match host.verify(call)
        case TransportError(_) => Handled(Reject(NotAuthorized, Unauthorized), [call])
        case Reply(body) =>
          match ReadVerdict(host, body)
          case Broken(failure) => Handled(Raise(failure), [call])
          case Refused => Handled(Reject(NotAuthorized, Unauthorized), [call])
          case Success => Respond(host, req, code, [call])
  }

  /** Creating the event and rendering the response. */
  function Respond(host: Host, req: Request, code: int, calls: seq<VerifyRequest>): Handled {
    Handled(Accept(EventFor(host, req), ResponseFor(host, req, code)), calls)
  }

  /** Removing the routing keys leaves the delivered secret where it was. */
  lemma SecretSurvivesRouting(params: map<string, Value>)
    ensures Lookup(params - RoutingKeys, SecretParam) == Lookup(params, SecretParam)
  {
    assert SecretParam[0] == 's' && SecretParam[1] == 'e';
    assert SecretParam !in RoutingKeys;
  }

  /** Removing the routing keys and the secret leaves the delivered token where it was. */
  lemma TokenSurvives(params: map<string, Value>)
    ensures Lookup(params - (RoutingKeys + {SecretParam}), TokenParam) == Lookup(params, TokenParam)
  {
    assert TokenParam[0] == 'g';
    assert TokenParam !in RoutingKeys + {SecretParam};
  }

  /** The parameters left for the template are those left after the secret, less the
      token when reCAPTCHA is on. */
  lemma RemainingSplit(host: Host, req: Request)
    ensures !CaptchaRequired(host) ==> RemainingParams(host, req) == req.params - (RoutingKeys + {SecretParam})
    ensures CaptchaRequired(host) ==> RemainingParams(host, req) == (req.params - (RoutingKeys + {SecretParam})) - {TokenParam}
  {
    assert RoutingKeys + {SecretParam} + {} == RoutingKeys + {SecretParam};
  }

  // ---------------------------------------------------------------------------
  // The pipeline's gates, stated one by one on the request as it arrives.

  /** The delivered `secret` parameter equals the configured secret (`nil == nil` included). */
  predicate SecretMatches(host: Host, req: Request) {
    Lookup(req.params, SecretParam) == host.settings.secret
  }

  /** The method is on the allow-list, and the list could be built. */
  predicate VerbAllowed(host: Host, req: Request) {
    VerbList(host.settings.verbs).Some? && req.verb in VerbList(host.settings.verbs).value
  }

  /** Everything before the reCAPTCHA step passes. */
  predicate PassedBeforeCaptcha(host: Host, req: Request) {
    SecretMatches(host, req) && VerbAllowed(host, req) && ResponseCode(host.settings.code).Some?
  }

  predicate CaptchaRequired(host: Host) {
    Present(host.settings.recaptchaSecret)
  }

  /** The delivered reCAPTCHA token. */
  function Token(req: Request): Value {
    Lookup(req.params, TokenParam)
  }

  /** The form sent to the verifier. */
  function VerifierCall(host: Host, req: Request): VerifyRequest {
    VerifyRequest(
      host.settings.recaptchaSecret,
      Token(req),
      if host.boolify(host.settings.recaptchaSendRemoteAddr) then Some(req.remoteAddr) else None)
  }

  /** reCAPTCHA is off, or the token is there and the verifier confirms it. */
  predicate CaptchaPasses(host: Host, req: Request) {
    !CaptchaRequired(host)
    || (Truthy(Token(req))
        && host.verify(VerifierCall(host, req)).Reply?
        && ReadVerdict(host, host.verify(VerifierCall(host, req)).body) == Success)
  }

  /** All gates pass. */
  predicate Admitted(host: Host, req: Request) {
    PassedBeforeCaptcha(host, req) && CaptchaPasses(host, req)
  }

  /** The event an admitted request creates. */
  function EventFor(host: Host, req: Request): Payload {
    Payload(req.rawPost, req.queryParameters, ParseJson(host, req.rawPost))
  }

  /** The request parameters that reach the response template. */
  function RemainingParams(host: Host, req: Request): (params: map<string, Value>)
    ensures SecretParam !in params
    ensures forall k :: k in RoutingKeys ==> k !in params
    ensures CaptchaRequired(host) ==> TokenParam !in params
    ensures forall k :: (k in req.params && k !in RoutingKeys && k != SecretParam
                         && (k != TokenParam || !CaptchaRequired(host)))
                        ==> k in params && params[k] == req.params[k]
    ensures params.Keys <= req.params.Keys
  {
    req.params - (RoutingKeys + {SecretParam} + (if CaptchaRequired(host) then {TokenParam} else {}))
  }

  /** `params.merge(payload)`: the context the `response` template is interpolated in. */
  function RenderContext(host: Host, req: Request): (ctx: map<string, Value>)
    ensures SecretParam !in ctx
    ensures CaptchaRequired(host) ==> TokenParam !in ctx
    ensures forall k :: k in RoutingKeys ==> k !in ctx
    ensures ctx.Keys == RemainingParams(host, req).Keys + PayloadNames
    ensures ctx["body"] == Str(req.rawPost) && ctx["query"] == Obj(req.queryParameters)
    ensures ctx["json"] == ParseJson(host, req.rawPost)
    ensures forall k :: k in RemainingParams(host, req) && k !in PayloadNames ==> ctx[k] == RemainingParams(host, req)[k]
  {
    PayloadKeys(EventFor(host, req));
    RemainingParams(host, req) + EventFor(host, req).AsHash()
  }

  /** The payload's three keys are none of the keys the pipeline removes. */
  lemma PayloadKeys(p: Payload)
    ensures p.AsHash().Keys == PayloadNames
    ensures SecretParam !in p.AsHash() && TokenParam !in p.AsHash()
    ensures forall k :: k in RoutingKeys ==> k !in p.AsHash()
  {
    PayloadNamesFresh();
  }

  lemma PayloadNamesFresh()
    ensures SecretParam !in PayloadNames && TokenParam !in PayloadNames
    ensures RoutingKeys !! PayloadNames
  {
    assert forall k :: k in PayloadNames ==> |k| < 6;
    assert forall k :: k in RoutingKeys ==> |k| >= 6;
  }

  /** The response an admitted request gets. */
  function ResponseFor(host: Host, req: Request, code: int): Response {
    var text := OrDefaultResponse(host.responseIn(RenderContext(host, req)));
    var headers := Presence(host.settings.responseHeaders);
    if headers.Null? then Plain(text, code) else WithHeaders(text, code, PlainText, headers)
  }
}
